=== FILE: README.md ===
# Windows_Windows layout engine in Dafny

This project models the window-arrangement core of Windows_Windows, a desktop
utility that arranges and saves the positions of top-level windows and desktop
icons. The model follows `Windows_Windows/WinWinFunctions.cpp` and covers:

- **Window selection.** `EnumWindowsProc` decides which top-level windows are
  collected. `GetActiveWindows` sorts the collected windows by title
  (modules `WindowSource`, `Lexicographic`).
- **Stack.** Up to four windows become full-width rows. Five to eight are split
  into two columns, and the left column takes the extra window. For more than
  eight, `StackWindowsCallback` lays out page 0 only: the first eight windows.
  See module `Stacking`.
- **Cascade and Squish.** Both use the diagonal `10 + 50·i`. Cascade moves
  window `i` to a 750×750 square at that corner. Squish minimizes exactly the
  windows still at their corner (module `Cascading`).
- **Window layouts.** `SaveWindowLayout` writes one record per window.
  `ExecuteWindowLayout` rebuilds `SavedWindow` records and applies every saved
  entry whose process path matches a live window's path. Entries are applied in
  file order (module `WindowLayouts`).
- **Desktop icon layouts.** Each coordinate is saved as decimal text
  (`std::to_string`) and read back with `std::stoi`. Each live icon goes to the
  position of the first saved icon with the same label (modules `IconLayouts`,
  `Decimal`).

Win32 calls are replaced by values:

- A live window is a `Windows.Window` record. It holds the parent flag,
  visibility, title, process path, iconic state, window rectangle and
  `WINDOWPLACEMENT`.
- A desktop icon is a `(label, position)` pair.
- The screen size is a pair of positive parameters.
- `SetWindowPos` becomes a `Geometry.Frame`, which `Windows.MoveTo` applies.
  `ShowWindow(SW_MINIMIZE)` becomes a boolean decision.
- `SetWindowPlacement` becomes a new placement on the window record.
- `LVM_SETITEMPOSITION` becomes an `IconMove` carrying the two 16-bit words
  that `MAKELPARAM` packs.
- A layout file is an entry of a map from path to the sequence of records it
  holds.

Fixed-width conversions are written out in module `Word32`:

- LONG coordinates are read back as UINT and stored into LONG again.
- `MAKELPARAM` truncates coordinates to 16 bits.

The process-path buffer is shared by the whole loop in both save and restore.
If a lookup fails, the window keeps the path the previous window left in the
buffer, or the empty path for the first window (`WindowLayouts.ProcessPaths`).

Further facts about the code that the model keeps:

- Selection has no liveness or enabled check. The Visual Studio title is
  always among the five excluded titles.
- `StackWindowsCallback` sets its own page index to 0 and never changes it.
- Cascade's step is a constant 50, whatever the screen height.
- Restore matches on the process path only, never on handle or title. Every
  matching entry is applied in file order, so the last one wins.
- Save stores an empty title. An empty layout name is used as it is and
  yields `SavedLayouts/.json`.

## Model

| member | source | states |
|---|---|---|
| WindowSource.EnumWindowsProc | Windows_Windows/WinWinFunctions.cpp:28-44 | the callback appends the window exactly when it has no parent, is visible, has a non-empty title, and that title is not one of the five excluded ones; otherwise the collection is unchanged |
| WindowSource.Enumerate | Windows_Windows/WinWinFunctions.cpp:28-44 | enumeration yields every candidate window as often as it occurs and nothing else |
| WindowSource.SortByTitle | Windows_Windows/WinWinFunctions.cpp:46-51 | the result is a permutation of the input that is non-decreasing by title; tie order is not fixed |
| WindowSource.GetActiveWindows | Windows_Windows/WinWinFunctions.cpp:53-61 | the active windows are a permutation of the collected candidates, sorted by title |
| Lexicographic.LessCharacterization | Windows_Windows/WinWinFunctions.cpp:50 | the title comparison holds exactly when the first title is a proper prefix of the second or is smaller at the first differing position |
| Lexicographic.LessTotal | Windows_Windows/WinWinFunctions.cpp:50 | two different titles are always ordered one way or the other, so sorting is well defined |
| Lexicographic.LessTransitive | Windows_Windows/WinWinFunctions.cpp:50 | the title order is transitive |
| Stacking.StackFourOrLess | Windows_Windows/WinWinFunctions.cpp:103-116 | the accumulating loop gives row i the frame (0, i·(H div n), W, H div n) |
| Stacking.StackFiveToEight | Windows_Windows/WinWinFunctions.cpp:118-147 | with L = ceil(n/2): slot i < L is (0, i·(H div L), W/2, H div L); slot i ≥ L is (W/2, (i−L)·(H div floor(n/2)), W/2, H div floor(n/2)); the offset restarts at the column switch |
| Stacking.PageOf | Windows_Windows/WinWinFunctions.cpp:87-93 | the copy loop yields exactly the consecutive chunk of at most eight items at the page index, or nothing past the end |
| Stacking.SubVectorCount | Windows_Windows/WinWinFunctions.cpp:84-85 | the computed page count is ceil(n/8) |
| Stacking.StackWindowsCallback | Windows_Windows/WinWinFunctions.cpp:80-101 | with the page index fixed at 0, the frames are the stack of the first min(n, 8) windows |
| Stacking.Stack | Windows_Windows/WinWinFunctions.cpp:63-78 | no windows is a division by zero; otherwise the frames equal the closed-form layout for the count |
| Stacking.RowsTileScreen | Windows_Windows/WinWinFunctions.cpp:103-116 | for 1–4 windows the rows are full width, inside the screen and ordered top to bottom in input order without overlap; their total height is at most H and more than H − n |
| Stacking.ColumnsSplitScreen | Windows_Windows/WinWinFunctions.cpp:118-147 | for 5–8 windows the first ceil(n/2) fill the left half and the rest the right half; both columns start at y = 0 and are ordered and non-overlapping; the columns do not overlap each other; everything fits the screen |
| Stacking.FirstPageOnly | Windows_Windows/WinWinFunctions.cpp:73-101 | more than eight windows are laid out exactly as a stack of eight |
| Stacking.StackLeavesLaterPagesAlone | Windows_Windows/WinWinFunctions.cpp:88-112 | windows at index 8 and beyond are untouched, and every laid-out window is restored from minimized |
| Stacking.ThreeRowsExample | Windows_Windows/WinWinFunctions.cpp:103-116 | three windows on 1920×1080 get (0,0,1920,360), (0,360,1920,360), (0,720,1920,360) |
| Cascading.Cascade | Windows_Windows/WinWinFunctions.cpp:149-158 | the accumulating loop gives window i a 750×750 frame at (10+50i, 10+50i) |
| Cascading.Squish | Windows_Windows/WinWinFunctions.cpp:160-170 | window i is minimized exactly when its top and left both equal 10+50i |
| Cascading.CascadeWindows | Windows_Windows/WinWinFunctions.cpp:149-158 | every cascaded window is restored and sits at its own cascade corner |
| Cascading.CornersIncrease | Windows_Windows/WinWinFunctions.cpp:150-156 | cascade corners strictly increase in both coordinates, so no two windows share one |
| Cascading.CascadeThenSquish | Windows_Windows/WinWinFunctions.cpp:149-170 | Squish right after Cascade minimizes every window |
| Cascading.SquishAfterMove | Windows_Windows/WinWinFunctions.cpp:160-170 | after a Cascade, a window moved off its corner is not minimized and every other window is |
| WindowLayouts.ExecutePath | Windows_Windows/WinWinFunctions.cpp:253-256 | restore opens `SavedLayouts/<name>.json` after dropping one trailing NUL from the name |
| WindowLayouts.SavePathRoundTrip | Windows_Windows/WinWinFunctions.cpp:184 | the layout name is recovered from its file name, so different names never share a file |
| WindowLayouts.ExecuteFindsSavedFile | Windows_Windows/WinWinFunctions.cpp:253-256 | a NUL-free name, with or without a terminating NUL, opens the file saved under that name |
| WindowLayouts.ProcessPaths | Windows_Windows/WinWinFunctions.cpp:216-221 | a window with a readable process gets its own path; a failed lookup gets the previous window's path, or the empty path for the first window |
| WindowLayouts.SaveEntries | Windows_Windows/WinWinFunctions.cpp:206-246 | one record per window in order: the normal rect is the live rect unless the window is iconic; minimized equals iconic; the title is empty; handle, flags, showCmd and the min and max positions are copied |
| WindowLayouts.SaveWindowLayout | Windows_Windows/WinWinFunctions.cpp:184-250 | the layout's file now holds exactly the records of `SaveEntries`; no other file is added and every other file is unchanged |
| WindowLayouts.ReadBackSavedEntry | Windows_Windows/WinWinFunctions.cpp:275-302 | process, flags, showCmd, min and max points and normal rect read back equal those written, including the trip through UINT |
| WindowLayouts.AsWrittenDropsMinPosition | Windows_Windows/WinWinFunctions.cpp:317-323 | the placement the source builds carries whatever the uninitialised min position holds and otherwise equals the saved placement |
| WindowLayouts.AsWrittenLosesSavedMinPosition | Windows_Windows/WinWinFunctions.cpp:321-322 | a concrete saved entry whose min position is lost |
| WindowLayouts.PlacementOfRoundTrip | Windows_Windows/WinWinFunctions.cpp:317-323 | with the corrected placement, a window's entry written and read back rebuilds the placement save recorded, min position included |
| WindowLayouts.LastMatch | Windows_Windows/WinWinFunctions.cpp:310-327 | the chosen entry matches the path and no later entry does; there is none exactly when no entry matches |
| WindowLayouts.ApplyMatchingEntries | Windows_Windows/WinWinFunctions.cpp:310-327 | applying every matching entry in file order leaves the last matching entry's placement, or the window unchanged when none matches |
| WindowLayouts.ApplySavedPlacements | Windows_Windows/WinWinFunctions.cpp:305-328 | each live window, with the shared path buffer, is restored from its own last matching entry |
| WindowLayouts.ExecuteWindowLayout | Windows_Windows/WinWinFunctions.cpp:253-259 | a missing file leaves every window unchanged |
| WindowLayouts.RestoreOnlyTouchesMatchedPlacements | Windows_Windows/WinWinFunctions.cpp:305-327 | restore changes only placements, and a window with no matching entry is unchanged |
| WindowLayouts.RestoreFromOwnEntries | Windows_Windows/WinWinFunctions.cpp:305-327 | with distinct, readable process paths, a window restored from the entries saved for all windows gets back its own saved placement |
| WindowLayouts.SaveThenRestore | Windows_Windows/WinWinFunctions.cpp:206-327 | with distinct, readable process paths, save then restore gives every window back its own placement, with the live rect as normal rect when it was not iconic |
| WindowLayouts.SharedProcessTakesLastEntry | Windows_Windows/WinWinFunctions.cpp:310-327 | two live windows with the same process path end with the same placement unless nothing matched |
| WindowLayouts.RestoreIdempotent | Windows_Windows/WinWinFunctions.cpp:253-328 | restoring the same layout twice gives the same windows as once |
| WindowLayouts.ProcessPathsOnlyReadProcess | Windows_Windows/WinWinFunctions.cpp:305-309 | the path buffer depends only on the process lookups |
| Decimal.Stoi | Windows_Windows/WinWinFunctions.cpp:436-439 | a successful parse is a 32-bit value |
| Decimal.ToString | Windows_Windows/WinWinFunctions.cpp:388 | the text is non-empty, starts with '-' exactly for negatives, and is all digits otherwise |
| Decimal.DecimalRoundTrip | Windows_Windows/WinWinFunctions.cpp:387-439 | parsing the decimal text of a 32-bit value gives the value back |
| Decimal.NatDigitsValue | Windows_Windows/WinWinFunctions.cpp:388 | the digits of n denote n |
| Word32.Int32RoundTrip | Windows_Windows/WinWinFunctions.cpp:281-289 | a LONG read back as UINT and stored into a LONG is unchanged |
| Word32.LoWord | Windows_Windows/WinWinFunctions.cpp:476 | the packed word is the coordinate modulo 2^16, and the coordinate itself when it fits |
| IconLayouts.ReadableIcons | Windows_Windows/WinWinFunctions.cpp:367-392 | a single icon is kept exactly when its position was read; every readable icon is kept and nothing else is |
| IconLayouts.ReadableIconsAppend | Windows_Windows/WinWinFunctions.cpp:367-392 | the filter works icon by icon, so with the one-icon case it keeps list-view order and one entry per readable icon |
| IconLayouts.IconEntries | Windows_Windows/WinWinFunctions.cpp:367-392 | the file holds one record per readable icon, in the same order, encoding that icon's label and position |
| IconLayouts.SaveDesktopLayout | Windows_Windows/WinWinFunctions.cpp:336-397 | the layout's file now holds exactly the records of `IconEntries`; no other file is added and every other file is unchanged |
| IconLayouts.DecodeIcons | Windows_Windows/WinWinFunctions.cpp:433-445 | all records decode in order, or some record fails to decode |
| IconLayouts.DecodeEncodedIcon | Windows_Windows/WinWinFunctions.cpp:387-441 | a saved icon record decodes to its label and position |
| IconLayouts.DecodeSavedIcons | Windows_Windows/WinWinFunctions.cpp:367-445 | decoding a saved file yields exactly the readable icons in order |
| IconLayouts.FirstMatch | Windows_Windows/WinWinFunctions.cpp:467-480 | the chosen saved icon carries the label and no earlier one does; there is none exactly when none carries it |
| IconLayouts.MatchIcons | Windows_Windows/WinWinFunctions.cpp:446-481 | the loop with early exit moves each live icon to its first matching saved icon's 16-bit position, and sends nothing without a match |
| IconLayouts.ExecuteDesktopLayout | Windows_Windows/WinWinFunctions.cpp:402-407 | a missing file moves no icon |
| IconLayouts.SaveThenRestoreIcons | Windows_Windows/WinWinFunctions.cpp:367-481 | with distinct labels and LONG coordinates, save then restore sends each readable icon to the 16-bit words of its own position, which is exactly its position when both coordinates lie in [0, 2^16), and leaves the others |
| TextUnits.RemoveNul | Windows_Windows/WinWinFunctions.cpp:314 | NUL removal drops every NUL, keeps every other character's count, and leaves NUL-free text unchanged |
| TextUnits.RemoveNulAppend | Windows_Windows/WinWinFunctions.cpp:314 | NUL removal works piece by piece, so with the one-character case it keeps the other characters in their order |
| TextUnits.RemoveNulIgnoresPadding | Windows_Windows/WinWinFunctions.cpp:311-314 | trailing NUL padding from the conversion does not affect the compared text |
| TextUnits.Truncate | Windows_Windows/WinWinFunctions.cpp:30-32 | a title read through a 256-character buffer is its prefix: the whole title when it fits, otherwise exactly its first 255 characters |
| Windows.MoveTo | Windows_Windows/WinWinFunctions.cpp:109-112 | a moved window is restored, has the frame's rectangle, and its placement reports SW_SHOWNORMAL with that rectangle as normal position; nothing else changes |
| Windows.MoveToIdempotent | Windows_Windows/WinWinFunctions.cpp:109-112 | moving a window twice to the same frame is the same as moving it once |
| WindowLayouts.SaveAfterMove | Windows_Windows/WinWinFunctions.cpp:224-241 | a window moved by Stack or Cascade is saved as not minimized, with SW_SHOWNORMAL and its new frame as normal rectangle |
| WindowLayouts.WriteWithoutTruncation | Windows_Windows/WinWinFunctions.cpp:190-191 | the file text after a write through a stream opened without truncation starts with the new text and keeps the rest of a longer old text |
| WindowLayouts.WriteWithoutTruncationExact | Windows_Windows/WinWinFunctions.cpp:190-191 | the file holds exactly the new text if and only if the old text was no longer |
| WindowLayouts.ShorterSaveLeavesStrayBracket | Windows_Windows/WinWinFunctions.cpp:361-362 | a concrete re-save with one digit fewer leaves a stray `]` after the JSON document |

## Findings

| source | as written | input that shows it | evidently intended | confidence | as-written member | corrected member |
|---|---|---|---|---|---|---|
| Windows_Windows/WinWinFunctions.cpp:107 | `Stack` sends zero windows to `StackFourOrLess`, which divides the screen height by the window count | `Stack` on an empty window list, e.g. when no eligible window is open | no windows, nothing to lay out | high (not executed) | Stacking.Stack | Stacking.StackLayout |
| Windows_Windows/WinWinFunctions.cpp:321-322 | the min position is written into `ptMaxPosition`, which the next line overwrites, so `ptMinPosition` stays uninitialised | a saved entry with min position (-32000, -32000) restored while the uninitialised field holds (0, 0) | `placement.ptMinPosition = window->m_ptMinPosition` | high (not executed) | WindowLayouts.AsWrittenLosesSavedMinPosition | WindowLayouts.SaveThenRestore |
| Windows_Windows/WinWinFunctions.cpp:190-191 | the layout file is opened with `fstream::open` in its default in/out mode, without `std::ios::trunc`, here and at lines 361-362, so a shorter save leaves the tail of the older file behind and the strict `nlohmann::json::parse` at lines 273 and 432 then throws | saving a desktop layout again after one icon moved from x = 10 to x = 9 | the file holds exactly the new JSON | high (not executed) | WindowLayouts.ShorterSaveLeavesStrayBracket | WindowLayouts.SaveThenRestore |

The rest of the model uses the corrected definitions:

- `StackWindows` uses `StackLayout`.
- Restore uses `PlacementOf`, and `SaveThenRestore` proves that the min
  position comes back as well.
- `SaveWindowLayout` and `SaveDesktopLayout` replace the file's records, as a
  truncating open would. `SaveThenRestore` and `SaveThenRestoreIcons` hold for
  any earlier contents of the file.

## Left out

- TextUnits.Truncate: a Dafny character is a whole code point, not a UTF-16
  unit, so a title with characters outside the Basic Multilingual Plane is
  cut later than `GetWindowText` cuts it, and a surrogate pair is never split.
  Whether a title is empty is the same under both counts.
- Win32 side effects are abstracted. `ShowWindow`, `SendMessage(SC_RESTORE)`,
  the top-most/not-top-most `SetWindowPos` pair, `SetWindowPlacement` and
  `GetSystemMetrics` become the frames, decisions and placements above.
  Z-order is not modelled.
- The OS may clamp a window to its minimum tracking size; `MoveTo` assumes it
  does not.
- `SetWindowPlacement` only replaces the placement in the model. Its effect on
  the live rectangle and show state is left to the OS.
- `StackFiveToEight` uses `float` `ceil`/`floor` and `int / float` division.
  The model uses integer `div`. Both agree for the positive counts and screen
  sizes involved, which float represents exactly.
- The dialog procedure `DialogProcWinFun` and `GetUserInput` are modal UI. The
  layout name is a parameter; a cancelled dialog gives the empty name.
- The desktop list-view foreign-process memory access is abstracted away. This
  covers `VirtualAllocEx`, `ReadProcessMemory`, `WriteProcessMemory` and the
  ListView messages. Icons are a sequence of labels with an optional position.
  The restore loop reads positions but never uses them.
- Process lookup (`OpenProcess`, `GetModuleFileNameEx`) is abstracted. A window
  carries its path, or nothing when the lookup fails. Paths longer than
  `MAX_PATH` are not truncated.
- Text conversion (`ConvertToNarrowString`, `MultiByteToWideChar`) is not part
  of this model. Saved text is the same character sequence, with any NUL
  padding removed before comparison. The model does not distinguish ANSI from
  wide titles in `compareHwnd`.
- JSON text and the file system are modelled at record level. A file is a
  sequence of records, and a missing file is a missing map key. Missing JSON
  fields, and the `nlohmann` exceptions they would raise, are not modelled.
- WindowLayouts.SaveWindowLayout: models the corrected, truncating write. As
  written, saving over a longer file of the same name leaves its tail, and the
  next restore fails to parse (see Findings); the record-level map does not
  represent that text.
- IconLayouts.SaveDesktopLayout: models the corrected, truncating write, for
  the same reason as `SaveWindowLayout`.
- Windows.MoveTo: GetWindowPlacement reports the normal position in
  workspace coordinates, which differ from screen coordinates by the taskbar
  offset. The model stores the screen frame.
- Window handles are opaque integers. The `int(ctrl)` truncation of the handle
  is not modelled, and the handle is never read back.
- A window closing during an operation is not modelled.
- The `new SavedWindow` / `new SavedIcon` allocations are never freed. That
  leak is not modelled.
- `WindowControl.cpp`, `BaseWindow.cpp`, `WindowsApp.cpp` and `WinMain.cpp` are
  not part of this model. `WinWinFunctions.h` is not either. These are UI
  plumbing, and the header declares stale signatures.
- Titles and labels are assumed to contain no embedded NUL. A wide string
  would stop at the first NUL.

=== FILE: cascading.dfy ===
/**
 * Cascade and Squish. Both walk the same diagonal: window i belongs at
 * (10 + 50 i, 10 + 50 i). Cascade puts every window there as a 750 x 750
 * square; Squish minimizes the windows that are still there.
 */
module Cascading {
  import opened Geometry
  import opened Windows

  const CASCADE_ORIGIN: int := 10
  const CASCADE_STEP: int := 50
  const CASCADE_SIZE: int := 750

  /** The shared offset sequence: x and y of window i's corner. */
  function CascadeCorner(i: nat): int {
    CASCADE_ORIGIN + CASCADE_STEP * i
  }

  function CascadeFrame(i: nat): Frame {
    Frame(CascadeCorner(i), CascadeCorner(i), CASCADE_SIZE, CASCADE_SIZE)
  }

  /** The window still sits at the corner the cascade gave slot i. */
  predicate AtCascadeCorner(w: Window, i: nat) {
    w.rect.top == CascadeCorner(i) && w.rect.left == CascadeCorner(i)
  }

  /** Cascade: one square per window, the offset advancing by 50 after each. */
  method Cascade(count: nat) returns (frames: seq<Frame>)
    ensures |frames| == count
    ensures forall i :: 0 <= i < count ==> frames[i] == CascadeFrame(i)
  {
    var stackPos := CASCADE_ORIGIN;
    frames := [];
    var i := 0;
    while i < count
      invariant 0 <= i <= count && |frames| == i
      invariant stackPos == CascadeCorner(i)
      invariant forall k :: 0 <= k < i ==> frames[k] == CascadeFrame(k)
    {
      frames := frames + [Frame(stackPos, stackPos, CASCADE_SIZE, CASCADE_SIZE)];
      stackPos := stackPos + CASCADE_STEP;
      i := i + 1;
    }
  }

  /** Squish: minimize[i] is whether ShowWindow(SW_MINIMIZE) is sent to window i. */
  method Squish(windows: seq<Window>) returns (minimize: seq<bool>)
    ensures |minimize| == |windows|
    ensures forall i :: 0 <= i < |windows| ==>
      (minimize[i] <==> windows[i].rect.top == CascadeCorner(i) && windows[i].rect.left == CascadeCorner(i))
  {
    var stackPos := CASCADE_ORIGIN;
    minimize := [];
    var i := 0;
    while i < |windows|
      invariant 0 <= i <= |windows| && |minimize| == i
      invariant stackPos == CascadeCorner(i)
      invariant forall k :: 0 <= k < i ==> (minimize[k] <==> AtCascadeCorner(windows[k], k))
    {
      var windowRect := windows[i].rect;
      minimize := minimize + [windowRect.top == stackPos && windowRect.left == stackPos];
      stackPos := stackPos + CASCADE_STEP;
      i := i + 1;
    }
  }

  /** The windows after Cascade: each restored and moved to its square. */
  function CascadeWindows(windows: seq<Window>): (r: seq<Window>)
    ensures |r| == |windows|
    ensures forall i :: 0 <= i < |r| ==> !r[i].iconic && AtCascadeCorner(r[i], i)
  {
    seq(|windows|, i requires 0 <= i < |windows| => MoveTo(windows[i], CascadeFrame(i)))
  }

  /** Cascaded corners move strictly down and right, so no two windows share one. */
  lemma CornersIncrease(i: nat, j: nat)
    requires i < j
    ensures CascadeCorner(i) + CASCADE_STEP <= CascadeCorner(j)
    ensures CascadeFrame(i).x < CascadeFrame(j).x && CascadeFrame(i).y < CascadeFrame(j).y
  {
  }

  /** Squish straight after Cascade minimizes every window. */
  method CascadeThenSquish(windows: seq<Window>) returns (minimize: seq<bool>)
    ensures |minimize| == |windows|
    ensures forall i :: 0 <= i < |windows| ==> minimize[i]
  {
    var frames := Cascade(|windows|);
    var placed := seq(|windows|, i requires 0 <= i < |windows| => MoveTo(windows[i], frames[i]));
    assert placed == CascadeWindows(windows);
    minimize := Squish(placed);
  }

  /** A window moved off its cascade corner after Cascade is not minimized by Squish. */
  method SquishAfterMove(windows: seq<Window>, moved: nat, newRect: Rect) returns (minimize: seq<bool>)
    requires moved < |windows|
    requires newRect.left != CascadeCorner(moved) || newRect.top != CascadeCorner(moved)
    ensures |minimize| == |windows|
    ensures !minimize[moved]
    ensures forall i :: 0 <= i < |windows| && i != moved ==> minimize[i]
  {
    var cascaded := CascadeWindows(windows);
    var dragged := cascaded[moved := cascaded[moved].(rect := newRect)];
    minimize := Squish(dragged);
  }
}

=== FILE: decimal.dfy ===
/**
 * Decimal text for icon coordinates: std::to_string on the way out and
 * std::stoi (base 10, 32-bit long) on the way back in.
 */
module Decimal {
  import opened Results
  import opened Word32

  datatype StoiError = InvalidArgument | OutOfRange

  predicate IsDigit(c: char) {
    '0' <= c <= '9'
  }

  predicate AllDigits(s: string) {
    forall i :: 0 <= i < |s| ==> IsDigit(s[i])
  }

  /** The characters isspace accepts in the "C" locale. */
  predicate IsSpace(c: char) {
    c == ' ' || c == '\t' || c == '\n' || c == '\r' || c == '\U{B}' || c == '\U{C}'
  }

  function DigitChar(d: int): (c: char)
    requires 0 <= d < 10
    ensures IsDigit(c)
    ensures DigitValue(c) == d
  {
    ('0' as int + d) as char
  }

  function DigitValue(c: char): int
    requires IsDigit(c)
  {
    c as int - '0' as int
  }

  /** Value of a run of decimal digits, most significant first. */
  function DigitsValue(s: string): (v: nat)
    requires AllDigits(s)
    decreases |s|
  {
    if |s| == 0 then 0 else DigitsValue(s[..|s| - 1]) * 10 + DigitValue(s[|s| - 1])
  }

  /** Shortest decimal spelling of a natural number. */
  function NatDigits(n: nat): (s: string)
    ensures |s| > 0
    ensures AllDigits(s)
    decreases n
  {
    if n < 10 then [DigitChar(n)] else NatDigits(n / 10) + [DigitChar(n % 10)]
  }

  /** std::to_string of an integer: a minus sign for negatives, then the digits. */
  function ToString(x: int): (s: string)
    ensures |s| > 0
    ensures x < 0 <==> s[0] == '-'
    ensures x >= 0 ==> AllDigits(s)
  {
    if x < 0 then "-" + NatDigits(-x) else NatDigits(x)
  }

  /** Number of leading whitespace characters. */
  function LeadingSpaces(s: string): (n: nat)
    ensures n <= |s|
    ensures forall i :: 0 <= i < n ==> IsSpace(s[i])
    ensures n < |s| ==> !IsSpace(s[n])
    decreases |s|
  {
    if |s| > 0 && IsSpace(s[0]) then 1 + LeadingSpaces(s[1..]) else 0
  }

  /** The longest prefix made of digits: where strtol stops reading. */
  function LeadingDigits(s: string): (d: string)
    ensures AllDigits(d)
    ensures d <= s
    ensures |d| < |s| ==> !IsDigit(s[|d|])
    decreases |s|
  {
    if |s| > 0 && IsDigit(s[0]) then [s[0]] + LeadingDigits(s[1..]) else ""
  }

  /**
   * std::stoi: skip whitespace, read an optional sign and then as many digits
   * as follow. No digit at all is invalid_argument; a value outside the
   * 32-bit long range is out_of_range.
   */
  function Stoi(s: string): (r: Result<int, StoiError>)
    ensures r.Success? ==> IsInt32(r.value)
  {
    var rest := s[LeadingSpaces(s)..];
    var negative := |rest| > 0 && rest[0] == '-';
    var body := if |rest| > 0 && (rest[0] == '-' || rest[0] == '+') then rest[1..] else rest;
    var digits := LeadingDigits(body);
    if |digits| == 0 then Failure(InvalidArgument)
    else
      var v: int := if negative then 0 - DigitsValue(digits) as int else DigitsValue(digits);
      if IsInt32(v) then Success(v) else Failure(OutOfRange)
  }

  lemma {:induction false} NatDigitsValue(n: nat)
    ensures DigitsValue(NatDigits(n)) == n
    decreases n
  {
    if n >= 10 {
      var s := NatDigits(n);
      assert s[..|s| - 1] == NatDigits(n / 10);
      NatDigitsValue(n / 10);
    }
  }

  lemma {:induction false} LeadingDigitsOfDigits(s: string)
    requires AllDigits(s)
    ensures LeadingDigits(s) == s
    decreases |s|
  {
    if |s| > 0 {
      LeadingDigitsOfDigits(s[1..]);
      assert s == [s[0]] + s[1..];
    }
  }

  /** Reading back what std::to_string wrote yields the original LONG. */
  lemma DecimalRoundTrip(x: int)
    requires IsInt32(x)
    ensures Stoi(ToString(x)) == Success(x)
  {
    var s := ToString(x);
    assert LeadingSpaces(s) == 0;
    assert s[0..] == s;
    if x < 0 {
      assert s[1..] == NatDigits(-x);
      LeadingDigitsOfDigits(NatDigits(-x));
      NatDigitsValue(-x);
    } else {
      LeadingDigitsOfDigits(s);
      NatDigitsValue(x);
    }
  }
}

=== FILE: geometry.dfy ===
/** Screen geometry: POINT, RECT, and the (x, y, cx, cy) arguments of SetWindowPos. */
module Geometry {

  /** A screen dimension as returned by GetSystemMetrics: always positive. */
  type Extent = n: int | n > 0 witness 1

  datatype Point = Point(x: int, y: int)

  /** A Win32 RECT. */
  datatype Rect = Rect(left: int, top: int, right: int, bottom: int)

  /** The position and size handed to SetWindowPos. */
  datatype Frame = Frame(x: int, y: int, width: int, height: int)

  /** The window rectangle that results from moving a window to frame f. */
  function FrameRect(f: Frame): (r: Rect)
    ensures r.left == f.x && r.top == f.y
    ensures r.right - r.left == f.width && r.bottom - r.top == f.height
  {
    Rect(f.x, f.y, f.x + f.width, f.y + f.height)
  }

  /** The frame lies inside the screen of the given size. */
  predicate WithinScreen(f: Frame, screenW: int, screenH: int) {
    0 <= f.x && f.x + f.width <= screenW && 0 <= f.y && f.y + f.height <= screenH
  }

  /** a ends at or above the top of b. */
  predicate Above(a: Frame, b: Frame) {
    a.y + a.height <= b.y
  }

  /** The two frames share no interior point. */
  predicate Disjoint(a: Frame, b: Frame) {
    a.x + a.width <= b.x || b.x + b.width <= a.x || Above(a, b) || Above(b, a)
  }
}

=== FILE: icon_layouts.dfy ===
/**
 * SaveDesktopLayout and ExecuteDesktopLayout at the level of records:
 * desktop icons are (label, position) pairs, coordinates are stored as
 * decimal text, and a live icon is moved to the position of the first
 * saved icon carrying its label.
 */
module IconLayouts {
  import opened Results
  import opened Geometry
  import opened Word32
  import opened TextUnits
  import opened Decimal
  // Only for the layout file extension, which both kinds of layout share.
  import WindowLayouts

  const DESKTOP_DIRECTORY: string := "SavedDesktopLayouts/"

  /** A desktop list-view item; position is None when ListView_GetItemPosition fails. */
  datatype DesktopIcon = DesktopIcon(iconName: string, position: Option<Point>)

  /** One object of the saved JSON array: coordinates as decimal strings. */
  datatype IconEntry = IconEntry(icon: string, x: string, y: string)

  /** The SavedIcon object rebuilt from one entry. */
  datatype SavedIcon = SavedIcon(iconName: string, position: Point)

  /** LVM_SETITEMPOSITION for the item at `index`, with the two words MAKELPARAM packs. */
  datatype IconMove = IconMove(index: nat, x: int, y: int)

  type IconFiles = map<string, seq<IconEntry>>

  /** The file both save and restore use for a layout name. */
  function DesktopPath(name: string): string {
    DESKTOP_DIRECTORY + name + WindowLayouts.LAYOUT_EXTENSION
  }

  // ---------------------------------------------------------------- save

  function EncodeIcon(iconName: string, p: Point): IconEntry {
    IconEntry(iconName, ToString(p.x), ToString(p.y))
  }

  /**
   * The icons whose position could be read, in list-view order: save writes
   * exactly these, and a restore of that file rebuilds exactly these.
   */
  function ReadableIcons(icons: seq<DesktopIcon>): (saved: seq<SavedIcon>)
    ensures |saved| <= |icons|
    ensures |icons| == 1 ==>
      saved == (if icons[0].position.Some? then [SavedIcon(icons[0].iconName, icons[0].position.value)] else [])
    ensures forall i :: 0 <= i < |icons| && icons[i].position.Some? ==>
      SavedIcon(icons[i].iconName, icons[i].position.value) in saved
    ensures forall s :: s in saved ==>
      exists i :: 0 <= i < |icons| && icons[i].position.Some? && s == SavedIcon(icons[i].iconName, icons[i].position.value)
    decreases |icons|
  {
    if |icons| == 0 then []
    else
      var rest := ReadableIcons(icons[1..]);
      assert forall i :: 1 <= i < |icons| ==> icons[i] == icons[1..][i - 1];
      if icons[0].position.None? then rest
      else [SavedIcon(icons[0].iconName, icons[0].position.value)] + rest
  }

  /** The filter works icon by icon: with the one-icon case this fixes order and multiplicity. */
  lemma {:induction false} ReadableIconsAppend(a: seq<DesktopIcon>, b: seq<DesktopIcon>)
    ensures ReadableIcons(a + b) == ReadableIcons(a) + ReadableIcons(b)
    decreases |a|
  {
    if |a| == 0 {
      assert a + b == b;
    } else {
      assert (a + b)[1..] == a[1..] + b;
      ReadableIconsAppend(a[1..], b);
    }
  }

  /** The records save writes: one per readable icon, in the same order, each encoding that icon. */
  function IconEntries(icons: seq<DesktopIcon>): (entries: seq<IconEntry>)
    ensures |entries| == |ReadableIcons(icons)|
    ensures forall i :: 0 <= i < |entries| ==>
      entries[i] == EncodeIcon(ReadableIcons(icons)[i].iconName, ReadableIcons(icons)[i].position)
  {
    var saved := ReadableIcons(icons);
    seq(|saved|, i requires 0 <= i < |saved| => EncodeIcon(saved[i].iconName, saved[i].position))
  }

  function SaveDesktopLayout(files: IconFiles, name: string, icons: seq<DesktopIcon>): (r: IconFiles)
    ensures r.Keys == files.Keys + {DesktopPath(name)}
    ensures r[DesktopPath(name)] == IconEntries(icons)
    ensures forall p :: p in files && p != DesktopPath(name) ==> r[p] == files[p]
  {
    files[DesktopPath(name) := IconEntries(icons)]
  }

  // ---------------------------------------------------------------- read back

  /** stoi on both coordinates, then UINT and back to LONG; a throw aborts the restore. */
  function DecodeIcon(e: IconEntry): (r: Result<SavedIcon, StoiError>)
    ensures r.Success? ==> r.value.iconName == e.icon
  {
    match Stoi(e.x)
    case Failure(err) => Failure(err)
    case Success(x) =>
      match Stoi(e.y)
      case Failure(err) => Failure(err)
      case Success(y) => Success(SavedIcon(e.icon, Point(ToInt32(ToUint32(x)), ToInt32(ToUint32(y)))))
  }

  /** All entries decoded in order, or the first decoding error. */
  function DecodeIcons(entries: seq<IconEntry>): (r: Result<seq<SavedIcon>, StoiError>)
    ensures r.Success? ==> |r.value| == |entries|
    ensures r.Success? ==> forall i :: 0 <= i < |entries| ==> DecodeIcon(entries[i]) == Success(r.value[i])
    ensures r.Failure? ==> exists i :: 0 <= i < |entries| && DecodeIcon(entries[i]).Failure?
    decreases |entries|
  {
    if |entries| == 0 then Success([])
    else
      var head := DecodeIcon(entries[0]);
      var tail := DecodeIcons(entries[1..]);
      if head.Failure? then Failure(head.error)
      else if tail.Failure? then
        ShiftFailure(entries, tail);
        Failure(tail.error)
      else
        ShiftSuccess(DecodeIcon, entries, head.value, tail.value);
        Success([head.value] + tail.value)
  }

  /** Decoding is pointwise, so a decoded head and tail give a decoded whole; stated over any decoder. */
  lemma ShiftSuccess(decode: IconEntry -> Result<SavedIcon, StoiError>, entries: seq<IconEntry>, head: SavedIcon, tail: seq<SavedIcon>)
    requires |entries| > 0 && |tail| == |entries| - 1
    requires decode(entries[0]) == Success(head)
    requires forall i :: 0 <= i < |tail| ==> decode(entries[1..][i]) == Success(tail[i])
    ensures forall i :: 0 <= i < |entries| ==> decode(entries[i]) == Success(([head] + tail)[i])
  {
    forall i | 1 <= i < |entries|
      ensures decode(entries[i]) == Success(([head] + tail)[i])
    {
      assert entries[i] == entries[1..][i - 1];
    }
  }

  lemma ShiftFailure(entries: seq<IconEntry>, tail: Result<seq<SavedIcon>, StoiError>)
    requires |entries| > 0
    requires tail.Failure?
    requires exists i :: 0 <= i < |entries[1..]| && DecodeIcon(entries[1..][i]).Failure?
    ensures exists i :: 0 <= i < |entries| && DecodeIcon(entries[i]).Failure?
  {
    var i :| 0 <= i < |entries[1..]| && DecodeIcon(entries[1..][i]).Failure?;
    assert entries[1..][i] == entries[i + 1];
  }

  /** Coordinates written by save decode to the position they were written from. */
  lemma DecodeEncodedIcon(iconName: string, p: Point)
    requires IsInt32(p.x) && IsInt32(p.y)
    ensures DecodeIcon(EncodeIcon(iconName, p)) == Success(SavedIcon(iconName, p))
  {
    DecimalRoundTrip(p.x);
    DecimalRoundTrip(p.y);
    Int32RoundTrip(p.x);
    Int32RoundTrip(p.y);
  }

  // ---------------------------------------------------------------- restore

  predicate SameLabel(s: SavedIcon, iconName: string) {
    RemoveNul(s.iconName) == iconName
  }

  /** Index of the first saved icon with the iconName: the scan stops there. */
  function FirstMatch(saved: seq<SavedIcon>, iconName: string): (k: Option<nat>)
    ensures k.Some? ==> k.value < |saved| && SameLabel(saved[k.value], iconName)
    ensures k.Some? ==> forall j :: 0 <= j < k.value ==> !SameLabel(saved[j], iconName)
    ensures k.None? <==> forall j :: 0 <= j < |saved| ==> !SameLabel(saved[j], iconName)
    decreases |saved|
  {
    if |saved| == 0 then None
    else if SameLabel(saved[0], iconName) then Some(0)
    else
      match FirstMatch(saved[1..], iconName)
      case None => None
      case Some(k) => Some(k + 1)
  }

  /** The message sent for live icon `index`, if any. */
  function MoveFor(index: nat, iconName: string, saved: seq<SavedIcon>): Option<IconMove> {
    match FirstMatch(saved, iconName)
    case None => None
    case Some(k) => Some(IconMove(index, LoWord(saved[k].position.x), LoWord(saved[k].position.y)))
  }

  /**
   * The matching loop of ExecuteDesktopLayout with its early exit: for each
   * live icon the saved icons are scanned in order until a label matches.
   */
  method MatchIcons(live: seq<DesktopIcon>, saved: seq<SavedIcon>) returns (moves: seq<Option<IconMove>>)
    ensures |moves| == |live|
    ensures forall i :: 0 <= i < |live| ==> moves[i] == MoveFor(i, live[i].iconName, saved)
  {
    moves := [];
    var i := 0;
    while i < |live|
      invariant 0 <= i <= |live| && |moves| == i
      invariant forall k :: 0 <= k < i ==> moves[k] == MoveFor(k, live[k].iconName, saved)
    {
      var itemName := live[i].iconName;
      var move: Option<IconMove> := None;
      var j := 0;
      while j < |saved|
        invariant 0 <= j <= |saved|
        invariant forall k :: 0 <= k < j ==> !SameLabel(saved[k], itemName)
        invariant move == None
      {
        if RemoveNul(saved[j].iconName) == itemName {
          move := Some(IconMove(i, LoWord(saved[j].position.x), LoWord(saved[j].position.y)));
          break;
        }
        j := j + 1;
      }
      moves := moves + [move];
      i := i + 1;
    }
  }

  /**
   * ExecuteDesktopLayout: no file, no moves; an undecodable coordinate
   * anywhere aborts before any icon is moved.
   */
  function ExecuteDesktopLayout(files: IconFiles, name: string, live: seq<DesktopIcon>): (r: Result<seq<Option<IconMove>>, StoiError>)
    ensures r.Success? ==> |r.value| == |live|
    ensures DesktopPath(name) !in files ==> r.Success? && forall i :: 0 <= i < |live| ==> r.value[i].None?
  {
    var path := DesktopPath(name);
    if path !in files then Success(seq(|live|, _ => None))
    else
      match DecodeIcons(files[path])
      case Failure(err) => Failure(err)
      case Success(saved) => Success(seq(|live|, i requires 0 <= i < |live| => MoveFor(i, live[i].iconName, saved)))
  }

  /** Icons on screen that keep their labels apart and whose positions fit a LONG. */
  predicate RestorableIcons(icons: seq<DesktopIcon>) {
    && (forall i :: 0 <= i < |icons| ==> NulFree(icons[i].iconName))
    && (forall i, j :: 0 <= i < j < |icons| ==> icons[i].iconName != icons[j].iconName)
    && PositionsFitLong(icons)
  }

  /** Every coordinate of a readable icon fits a LONG. */
  predicate PositionsFitLong(icons: seq<DesktopIcon>) {
    forall i :: 0 <= i < |icons| && icons[i].position.Some? ==>
      IsInt32(icons[i].position.value.x) && IsInt32(icons[i].position.value.y)
  }

  /** Decoding what save wrote succeeds and yields the readable icons unchanged. */
  lemma DecodeSavedIcons(icons: seq<DesktopIcon>)
    requires PositionsFitLong(icons)
    ensures DecodeIcons(IconEntries(icons)) == Success(ReadableIcons(icons))
  {
    var saved := ReadableIcons(icons);
    var entries := IconEntries(icons);
    forall i | 0 <= i < |entries|
      ensures DecodeIcon(entries[i]) == Success(saved[i])
    {
      assert saved[i] in saved;
      var k :| 0 <= k < |icons| && icons[k].position.Some? && saved[i] == SavedIcon(icons[k].iconName, icons[k].position.value);
      DecodeEncodedIcon(saved[i].iconName, saved[i].position);
    }
    var r := DecodeIcons(entries);
    assert r.Success?;
    assert r.value == saved;
  }

  /** With distinct labels, the first saved icon named like live icon i is icon i's own. */
  lemma {:induction false} MoveForOwnIcon(icons: seq<DesktopIcon>, i: nat)
    requires RestorableIcons(icons)
    requires i < |icons|
    ensures MoveFor(i, icons[i].iconName, ReadableIcons(icons)) ==
      if icons[i].position.Some? then Some(IconMove(i, LoWord(icons[i].position.value.x), LoWord(icons[i].position.value.y))) else None
  {
    var saved := ReadableIcons(icons);
    var name := icons[i].iconName;
    forall j | 0 <= j < |saved| && SameLabel(saved[j], name)
      ensures icons[i].position.Some? && saved[j].position == icons[i].position.value
    {
      assert saved[j] in saved;
      var k :| 0 <= k < |icons| && icons[k].position.Some? && saved[j] == SavedIcon(icons[k].iconName, icons[k].position.value);
      assert RemoveNul(icons[k].iconName) == icons[k].iconName;
    }
    if icons[i].position.Some? {
      var own := SavedIcon(name, icons[i].position.value);
      var j :| 0 <= j < |saved| && saved[j] == own;
      assert SameLabel(saved[j], name);
    }
  }

  /**
   * Saving the desktop and restoring it on the same icons sends every icon
   * whose position was read back to the 16-bit words of that position, and
   * leaves the others. An icon at a non-negative position below 2^16 goes
   * back exactly where it was; one left of or above the primary monitor
   * goes where its wrapped words point.
   */
  lemma SaveThenRestoreIcons(files: IconFiles, name: string, icons: seq<DesktopIcon>)
    requires RestorableIcons(icons)
    ensures var r := ExecuteDesktopLayout(SaveDesktopLayout(files, name, icons), name, icons);
      && r.Success?
      && forall i :: 0 <= i < |icons| ==>
           r.value[i] == if icons[i].position.Some?
             then Some(IconMove(i, LoWord(icons[i].position.value.x), LoWord(icons[i].position.value.y)))
             else None
    ensures var r := ExecuteDesktopLayout(SaveDesktopLayout(files, name, icons), name, icons);
      forall i ::
        (0 <= i < |icons| && icons[i].position.Some?
         && 0 <= icons[i].position.value.x < TWO_16 && 0 <= icons[i].position.value.y < TWO_16) ==>
          r.value[i] == Some(IconMove(i, icons[i].position.value.x, icons[i].position.value.y))
  {
    DecodeSavedIcons(icons);
    forall i | 0 <= i < |icons|
      ensures MoveFor(i, icons[i].iconName, ReadableIcons(icons)) ==
        if icons[i].position.Some? then Some(IconMove(i, LoWord(icons[i].position.value.x), LoWord(icons[i].position.value.y))) else None
    {
      MoveForOwnIcon(icons, i);
    }
  }
}

=== FILE: lexicographic.dfy ===
/**
 * The order std::basic_string's operator< puts on titles: code unit by code
 * unit, a proper prefix sorting first.
 */
module Lexicographic {

  predicate Less(a: string, b: string)
    decreases |a|
  {
    if |a| == 0 then |b| > 0
    else if |b| == 0 then false
    else a[0] < b[0] || (a[0] == b[0] && Less(a[1..], b[1..]))
  }

  /** a sorts no later than b. */
  predicate LessEq(a: string, b: string) {
    !Less(b, a)
  }

  /** Reference definition: a and b agree before position k and a is smaller at k. */
  ghost predicate FirstDifferenceBelow(a: string, b: string, k: nat) {
    k < |a| && k < |b| && a[..k] == b[..k] && a[k] < b[k]
  }

  ghost predicate IsProperPrefix(a: string, b: string) {
    |a| < |b| && a == b[..|a|]
  }

  /** Less agrees with the textbook definition of lexicographic order. */
  lemma {:induction false} LessCharacterization(a: string, b: string)
    ensures Less(a, b) <==> IsProperPrefix(a, b) || exists k: nat :: FirstDifferenceBelow(a, b, k)
    decreases |a|
  {
    if |a| == 0 || |b| == 0 {
      forall k: nat | FirstDifferenceBelow(a, b, k) ensures false { }
    } else if a[0] < b[0] {
      assert FirstDifferenceBelow(a, b, 0);
    } else if a[0] > b[0] {
      forall k: nat | FirstDifferenceBelow(a, b, k) ensures false { }
    } else {
      LessCharacterization(a[1..], b[1..]);
      if IsProperPrefix(a[1..], b[1..]) {
        assert a == [a[0]] + a[1..] && b[..|a|] == [b[0]] + b[1..][..|a| - 1];
      }
      if IsProperPrefix(a, b) {
        assert a[1..] == b[..|a|][1..];
      }
      if k: nat :| FirstDifferenceBelow(a[1..], b[1..], k) {
        assert a[..k + 1] == [a[0]] + a[1..][..k];
        assert b[..k + 1] == [b[0]] + b[1..][..k];
        assert FirstDifferenceBelow(a, b, k + 1);
      }
      if k: nat :| FirstDifferenceBelow(a, b, k) {
        assert k > 0;
        assert a[1..][..k - 1] == a[..k][1..];
        assert b[1..][..k - 1] == b[..k][1..];
        assert FirstDifferenceBelow(a[1..], b[1..], k - 1);
      }
    }
  }

  lemma {:induction false} LessIrreflexive(a: string)
    ensures !Less(a, a)
    decreases |a|
  {
    if |a| > 0 {
      LessIrreflexive(a[1..]);
    }
  }

  lemma {:induction false} LessTransitive(a: string, b: string, c: string)
    requires Less(a, b) && Less(b, c)
    ensures Less(a, c)
    decreases |a|
  {
    if |a| > 0 && a[0] == b[0] && b[0] == c[0] {
      LessTransitive(a[1..], b[1..], c[1..]);
    }
  }

  /** Any two distinct titles are ordered one way or the other. */
  lemma {:induction false} LessTotal(a: string, b: string)
    ensures a == b || Less(a, b) || Less(b, a)
    decreases |a|
  {
    if |a| > 0 && |b| > 0 && a[0] == b[0] {
      LessTotal(a[1..], b[1..]);
      if a[1..] == b[1..] {
        assert a == [a[0]] + a[1..] && b == [b[0]] + b[1..];
      }
    }
  }

  lemma LessAsymmetric(a: string, b: string)
    requires Less(a, b)
    ensures !Less(b, a)
  {
    if Less(b, a) {
      LessTransitive(a, b, a);
      LessIrreflexive(a);
    }
  }

  lemma LessEqTransitive(a: string, b: string, c: string)
    requires LessEq(a, b) && LessEq(b, c)
    ensures LessEq(a, c)
  {
    LessTotal(a, b);
    LessTotal(b, c);
    if Less(c, a) {
      if Less(a, b) {
        LessTransitive(c, a, b);
      }
    }
  }
}

=== FILE: results.dfy ===
/** Failure-carrying return values used where the source throws or divides by zero. */
module Results {

  datatype Option<+T> = None | Some(value: T)

  datatype Result<+T, +E> = Success(value: T) | Failure(error: E)

  function Min(a: int, b: int): (m: int)
    ensures m <= a && m <= b
    ensures m == a || m == b
  {
    if a <= b then a else b
  }
}

=== FILE: stacking.dfy ===
/**
 * Stack: tile the windows over the screen. Up to four windows become
 * full-width rows; five to eight are split into two columns; larger sets
 * are cut into pages of eight and only page 0 is laid out.
 */
module Stacking {
  import opened Results
  import opened Geometry
  import opened Windows

  const PAGE_SIZE: nat := 8

  datatype Fault = DivisionByZero

  /** Windows in the left column of a two-column stack: ceil(count / 2). */
  function LeftCount(count: nat): nat {
    (count + 1) / 2
  }

  /** Windows in the right column: floor(count / 2). */
  function RightCount(count: nat): nat {
    count / 2
  }

  /** Row i of a full-width stack of `count` rows. */
  function RowFrame(i: nat, count: nat, screenW: Extent, screenH: Extent): Frame
    requires count >= 1
  {
    Frame(0, i * (screenH / count), screenW, screenH / count)
  }

  /** Slot i of a two-column stack of `count` windows. */
  function ColumnFrame(i: nat, count: nat, screenW: Extent, screenH: Extent): Frame
    requires count >= 2
  {
    var left := LeftCount(count);
    if i < left then Frame(0, i * (screenH / left), screenW / 2, screenH / left)
    else Frame(screenW / 2, (i - left) * (screenH / RightCount(count)), screenW / 2, screenH / RightCount(count))
  }

  /** The frames Stack assigns to the leading windows, with nothing laid out for no windows. */
  function StackLayout(count: nat, screenW: Extent, screenH: Extent): (frames: seq<Frame>)
    ensures |frames| == Min(count, PAGE_SIZE)
  {
    if count == 0 then []
    else if count <= 4 then seq(count, i requires 0 <= i < count => RowFrame(i, count, screenW, screenH))
    else
      var n := Min(count, PAGE_SIZE);
      seq(n, i requires 0 <= i < n => ColumnFrame(i, n, screenW, screenH))
  }

  /** StackFourOrLess: rows pushed down by an accumulated offset. */
  method StackFourOrLess(count: nat, screenW: Extent, screenH: Extent) returns (frames: seq<Frame>)
    requires count >= 1
    ensures |frames| == count
    ensures forall i :: 0 <= i < count ==> frames[i] == RowFrame(i, count, screenW, screenH)
  {
    var stackFactorY := screenH / count;
    var stackPosY := 0;
    frames := [];
    var i := 0;
    while i < count
      invariant 0 <= i <= count && |frames| == i
      invariant stackPosY == i * stackFactorY
      invariant forall k :: 0 <= k < i ==> frames[k] == RowFrame(k, count, screenW, screenH)
    {
      frames := frames + [Frame(0, stackPosY, screenW, stackFactorY)];
      stackPosY := stackPosY + stackFactorY;
      i := i + 1;
    }
  }

  /**
   * StackFiveToEight: the left column first, then the offset is reset to 0
   * for the right column.
   */
  method StackFiveToEight(count: nat, screenW: Extent, screenH: Extent) returns (frames: seq<Frame>)
    requires count >= 2
    ensures |frames| == count
    ensures forall i :: 0 <= i < count ==> frames[i] == ColumnFrame(i, count, screenW, screenH)
  {
    var left := LeftCount(count);
    var stackFactorYLeft := screenH / left;
    var stackFactorYRight := screenH / RightCount(count);
    var stackPosY := 0;
    frames := [];
    var i := 0;
    while i < count
      invariant 0 <= i <= count && |frames| == i
      invariant stackPosY == if i < left then i * stackFactorYLeft else (i - left) * stackFactorYRight
      invariant forall k :: 0 <= k < i ==> frames[k] == ColumnFrame(k, count, screenW, screenH)
    {
      if i >= left {
        frames := frames + [Frame(screenW / 2, stackPosY, screenW / 2, stackFactorYRight)];
        stackPosY := stackPosY + stackFactorYRight;
      } else {
        frames := frames + [Frame(0, stackPosY, screenW / 2, stackFactorYLeft)];
        stackPosY := stackPosY + stackFactorYLeft;
      }
      i := i + 1;
      if i == left {
        stackPosY := 0;
      }
    }
  }

  /** The loop of StackWindowsCallback that copies one page into SubVector. */
  method PageOf<T>(items: seq<T>, page: nat) returns (sub: seq<T>)
    ensures PAGE_SIZE * page <= |items| ==> sub == items[PAGE_SIZE * page .. Min(PAGE_SIZE * page + PAGE_SIZE, |items|)]
    ensures PAGE_SIZE * page > |items| ==> sub == []
  {
    sub := [];
    var i := 0;
    while i < PAGE_SIZE
      invariant 0 <= i <= PAGE_SIZE
      invariant PAGE_SIZE * page + i <= |items| ==> sub == items[PAGE_SIZE * page .. PAGE_SIZE * page + i]
      invariant PAGE_SIZE * page + i > |items| ==>
        sub == if PAGE_SIZE * page <= |items| then items[PAGE_SIZE * page ..] else []
    {
      if |items| <= PAGE_SIZE * page + i {
        break;
      }
      sub := sub + [items[PAGE_SIZE * page + i]];
      i := i + 1;
    }
  }

  /** subVectorCount: ceil(count / 8), computed by the source and then unused. */
  function SubVectorCount(count: nat): (pages: nat)
    ensures PAGE_SIZE * pages >= count
    ensures pages > 0 ==> PAGE_SIZE * (pages - 1) < count
  {
    count / PAGE_SIZE + (if count % PAGE_SIZE == 0 then 0 else 1)
  }

  /** StackWindowsCallback with its page index fixed at 0. */
  method StackWindowsCallback<T>(windows: seq<T>, screenW: Extent, screenH: Extent) returns (frames: seq<Frame>)
    requires |windows| >= 1
    ensures frames == StackLayout(Min(|windows|, PAGE_SIZE), screenW, screenH)
  {
    var winFunStackIndex := 0;
    var sub := PageOf(windows, winFunStackIndex);
    if |sub| <= 4 {
      frames := StackFourOrLess(|sub|, screenW, screenH);
    } else {
      frames := StackFiveToEight(|sub|, screenW, screenH);
    }
  }

  /**
   * Stack as written: the count dispatch of the source. With no windows
   * StackFourOrLess divides the screen height by zero.
   */
  method Stack<T>(windows: seq<T>, screenW: Extent, screenH: Extent) returns (r: Result<seq<Frame>, Fault>)
    ensures |windows| == 0 ==> r == Failure(DivisionByZero)
    ensures |windows| > 0 ==> r == Success(StackLayout(|windows|, screenW, screenH))
  {
    if |windows| == 0 {
      return Failure(DivisionByZero);
    }
    var frames: seq<Frame>;
    if |windows| <= 4 {
      frames := StackFourOrLess(|windows|, screenW, screenH);
    } else if |windows| <= PAGE_SIZE {
      frames := StackFiveToEight(|windows|, screenW, screenH);
    } else {
      frames := StackWindowsCallback(windows, screenW, screenH);
      FirstPageOnly(|windows|, screenW, screenH);
    }
    assert frames == StackLayout(|windows|, screenW, screenH);
    r := Success(frames);
  }

  /**
   * The windows after Stack: the laid-out ones restored and moved to their
   * frames, every window beyond the first page left as it was.
   */
  function StackWindows(windows: seq<Window>, screenW: Extent, screenH: Extent): (r: seq<Window>)
    ensures |r| == |windows|
  {
    var frames := StackLayout(|windows|, screenW, screenH);
    seq(|windows|, i requires 0 <= i < |windows| => if i < |frames| then MoveTo(windows[i], frames[i]) else windows[i])
  }

  /** Rows for up to four windows: full width, in input order top to bottom, never overlapping, inside the screen. */
  lemma RowsTileScreen(count: nat, screenW: Extent, screenH: Extent)
    requires 1 <= count <= 4
    ensures var frames := StackLayout(count, screenW, screenH);
      && |frames| == count
      && (forall i :: 0 <= i < count ==> frames[i].x == 0 && frames[i].width == screenW && WithinScreen(frames[i], screenW, screenH))
      && (forall i, j :: 0 <= i < j < count ==> Above(frames[i], frames[j]))
      && frames[0].y == 0
      && screenH - count < count * frames[0].height <= screenH
  {
    var h := screenH / count;
    var frames := StackLayout(count, screenW, screenH);
    forall i | 0 <= i < count ensures WithinScreen(frames[i], screenW, screenH) {
      RowFits(i, count, h, screenH);
    }
    forall i, j | 0 <= i < j < count ensures Above(frames[i], frames[j]) {
      SlotsOrdered(i, j, h);
    }
  }

  /** Row i of `count` rows of height screenH / count ends inside the screen. */
  lemma RowFits(i: nat, count: nat, h: int, screenH: int)
    requires 0 <= i < count && h == screenH / count && screenH > 0
    ensures 0 <= i * h && i * h + h <= screenH
  {
    assert count * h <= screenH;
    assert (i + 1) * h <= count * h by {
      assert 0 <= h;
      MulMonotone(i + 1, count, h);
    }
  }

  lemma MulMonotone(a: nat, b: nat, h: nat)
    requires a <= b
    ensures a * h <= b * h
  {
  }

  lemma SlotsOrdered(i: nat, j: nat, h: nat)
    requires i < j
    ensures i * h + h <= j * h
  {
    MulMonotone(i + 1, j, h);
  }

  /**
   * Five to eight windows: the first ceil(count / 2) fill the left half in
   * order, the rest fill the right half from the top again; each column is
   * ordered top to bottom and fits the screen, and the columns do not overlap.
   */
  lemma ColumnsSplitScreen(count: nat, screenW: Extent, screenH: Extent)
    requires 5 <= count <= 8
    ensures var frames := StackLayout(count, screenW, screenH);
      var left := LeftCount(count);
      && |frames| == count
      && left == RightCount(count) + count % 2
      && (forall i :: 0 <= i < left ==> frames[i].x == 0 && frames[i].width == screenW / 2)
      && (forall i :: left <= i < count ==> frames[i].x == screenW / 2 && frames[i].width == screenW / 2)
      && frames[0].y == 0 && frames[left].y == 0
      && (forall i :: 0 <= i < count ==> WithinScreen(frames[i], screenW, screenH))
      && (forall i, j :: 0 <= i < j < left ==> Above(frames[i], frames[j]))
      && (forall i, j :: left <= i < j < count ==> Above(frames[i], frames[j]))
      && (forall i, j :: 0 <= i < left <= j < count ==> Disjoint(frames[i], frames[j]))
  {
    var frames := StackLayout(count, screenW, screenH);
    var left := LeftCount(count);
    var right := RightCount(count);
    forall i | 0 <= i < count ensures WithinScreen(frames[i], screenW, screenH) {
      if i < left { RowFits(i, left, screenH / left, screenH); }
      else { RowFits(i - left, right, screenH / right, screenH); }
    }
    forall i, j | 0 <= i < j < left ensures Above(frames[i], frames[j]) {
      SlotsOrdered(i, j, screenH / left);
    }
    forall i, j | left <= i < j < count ensures Above(frames[i], frames[j]) {
      SlotsOrdered(i - left, j - left, screenH / right);
    }
  }

  /** More than eight windows: exactly the first eight are laid out, as a stack of eight. */
  lemma FirstPageOnly(count: nat, screenW: Extent, screenH: Extent)
    requires count > PAGE_SIZE
    ensures StackLayout(count, screenW, screenH) == StackLayout(PAGE_SIZE, screenW, screenH)
  {
  }

  /** Windows past the first page keep their state; the laid-out ones end up restored. */
  lemma StackLeavesLaterPagesAlone(windows: seq<Window>, screenW: Extent, screenH: Extent)
    ensures var r := StackWindows(windows, screenW, screenH);
      && (forall i :: PAGE_SIZE <= i < |windows| ==> r[i] == windows[i])
      && (forall i :: 0 <= i < Min(|windows|, PAGE_SIZE) ==> !r[i].iconic)
  {
  }

  /** Three windows on a 1920 x 1080 screen. */
  lemma ThreeRowsExample()
    ensures StackLayout(3, 1920, 1080) == [Frame(0, 0, 1920, 360), Frame(0, 360, 1920, 360), Frame(0, 720, 1920, 360)]
  {
  }
}

=== FILE: text_units.dfy ===
/** Wide-character text handling shared by enumeration and layout restore. */
module TextUnits {

  const NUL: char := '\0'

  predicate NulFree(s: string) {
    forall i :: 0 <= i < |s| ==> s[i] != NUL
  }

  /**
   * The erase(remove(..., L'\0')) idiom applied after MultiByteToWideChar:
   * every NUL is dropped, everything else kept in order.
   */
  function RemoveNul(s: string): (r: string)
    ensures NulFree(r)
    ensures |r| <= |s|
    ensures NulFree(s) ==> r == s
    ensures |s| == 1 ==> r == (if s[0] == NUL then [] else s)
    ensures forall c :: c != NUL ==> multiset(r)[c] == multiset(s)[c]
    decreases |s|
  {
    if |s| == 0 then ""
    else
      var rest := RemoveNul(s[1..]);
      assert s == [s[0]] + s[1..];
      if s[0] == NUL then rest else [s[0]] + rest
  }

  /** NUL removal works character by character: with the one-character case this fixes the order kept. */
  lemma {:induction false} RemoveNulAppend(a: string, b: string)
    ensures RemoveNul(a + b) == RemoveNul(a) + RemoveNul(b)
    decreases |a|
  {
    if |a| == 0 {
      assert a + b == b;
    } else {
      assert (a + b)[1..] == a[1..] + b;
      RemoveNulAppend(a[1..], b);
    }
  }

  /** Terminating padding does not change the compared text. */
  lemma {:induction false} RemoveNulIgnoresPadding(s: string, pad: nat)
    ensures RemoveNul(s + seq(pad, _ => NUL)) == RemoveNul(s)
    decreases |s|
  {
    var p := seq(pad, _ => NUL);
    if |s| == 0 {
      assert s + p == p;
      NulPaddingVanishes(pad);
    } else {
      assert (s + p)[1..] == s[1..] + p;
      RemoveNulIgnoresPadding(s[1..], pad);
    }
  }

  lemma {:induction false} NulPaddingVanishes(pad: nat)
    ensures RemoveNul(seq(pad, _ => NUL)) == ""
    decreases pad
  {
    if pad > 0 {
      assert seq(pad, _ => NUL)[1..] == seq(pad - 1, _ => NUL);
      NulPaddingVanishes(pad - 1);
    }
  }

  /** The text GetWindowText places in a buffer of `capacity` characters: at most capacity - 1 of them. */
  function Truncate(s: string, capacity: nat): (r: string)
    requires capacity > 0
    ensures |r| == if |s| < capacity then |s| else capacity - 1
    ensures r <= s
    ensures |s| < capacity ==> r == s
  {
    if |s| < capacity then s else s[..capacity - 1]
  }
}

=== FILE: window_layouts.dfy ===
/**
 * SaveWindowLayout and ExecuteWindowLayout at the level of records: the
 * JSON objects written for each window, the SavedWindow objects rebuilt
 * from them, and the placements applied to live windows whose process
 * path matches.
 */
module WindowLayouts {
  import opened Results
  import opened Geometry
  import opened Word32
  import opened TextUnits
  import opened Windows

  const LAYOUT_DIRECTORY: string := "SavedLayouts/"
  const LAYOUT_EXTENSION: string := ".json"

  /** One object of the JSON array SaveWindowLayout writes. */
  datatype WindowEntry = WindowEntry(
    process: string,
    minimized: bool,
    handle: int,
    title: string,
    length: int,
    flags: int,
    showCmd: int,
    ptMinPosition: Point,
    ptMaxPosition: Point,
    rcNormalPosition: Rect)

  /** The SavedWindow object ExecuteWindowLayout builds from one entry. */
  datatype SavedWindow = SavedWindow(
    process: string,
    flags: int,
    showCmd: int,
    ptMinPosition: Point,
    ptMaxPosition: Point,
    rcNormalPosition: Rect)

  /** Layout files by path; a file holds the array of entries. */
  type LayoutFiles = map<string, seq<WindowEntry>>

  // ---------------------------------------------------------------- file names

  /** The file SaveWindowLayout writes for a layout name. */
  function SavePath(name: string): string {
    LAYOUT_DIRECTORY + name + LAYOUT_EXTENSION
  }

  predicate EndsWithNul(name: string) {
    |name| > 0 && name[|name| - 1] == NUL
  }

  /** The file ExecuteWindowLayout opens: one trailing NUL of the name is dropped first. */
  function ExecutePath(name: string): (path: string)
    ensures !EndsWithNul(name) ==> path == SavePath(name)
    ensures EndsWithNul(name) ==> path == SavePath(name[..|name| - 1])
  {
    var trimmed := if |name| > 0 && name[|name| - 1] == NUL then name[..|name| - 1] else name;
    SavePath(trimmed)
  }

  /** The name between directory and extension. */
  function NameOfPath(path: string): string
    requires |path| >= |LAYOUT_DIRECTORY| + |LAYOUT_EXTENSION|
  {
    path[|LAYOUT_DIRECTORY| .. |path| - |LAYOUT_EXTENSION|]
  }

  /** Distinct layout names never share a file. */
  lemma SavePathRoundTrip(name: string)
    ensures NameOfPath(SavePath(name)) == name
  {
    var p := SavePath(name);
    assert p[|LAYOUT_DIRECTORY| .. |p| - |LAYOUT_EXTENSION|] == name;
  }

  /** A name handed over with its terminating NUL opens the file saved under the bare name. */
  lemma ExecuteFindsSavedFile(name: string)
    requires NulFree(name)
    ensures ExecutePath(name) == SavePath(name)
    ensures ExecutePath(name + [NUL]) == SavePath(name)
  {
    assert (name + [NUL])[..|name|] == name;
  }

  // ---------------------------------------------------------------- process paths

  /**
   * The path the shared WCHAR path[MAX_PATH] buffer holds for each window.
   * A window whose lookup fails leaves the buffer as the previous window
   * set it.
   */
  function ProcessPaths(windows: seq<Window>, previous: string): (paths: seq<string>)
    ensures |paths| == |windows|
    ensures forall i :: 0 <= i < |windows| && windows[i].processPath.Some? ==> paths[i] == windows[i].processPath.value
    ensures |windows| > 0 && windows[0].processPath.None? ==> paths[0] == previous
    ensures forall i :: 0 < i < |windows| && windows[i].processPath.None? ==> paths[i] == paths[i - 1]
    decreases |windows|
  {
    if |windows| == 0 then []
    else
      var path := if windows[0].processPath.Some? then windows[0].processPath.value else previous;
      [path] + ProcessPaths(windows[1..], path)
  }

  /** The buffer starts out empty. */
  function LivePaths(windows: seq<Window>): (paths: seq<string>)
    ensures |paths| == |windows|
  {
    ProcessPaths(windows, "")
  }

  // ---------------------------------------------------------------- save

  /** The normal rectangle recorded: the live rectangle unless the window is minimized. */
  function SavedNormalRect(w: Window): Rect {
    if !w.iconic then w.rect else w.placement.rcNormalPosition
  }

  /** The JSON object written for one window; no title is ever filled in. */
  function SaveEntry(w: Window, path: string): WindowEntry {
    WindowEntry(
      path,
      w.iconic,
      w.handle,
      "",
      PLACEMENT_SIZE,
      w.placement.flags,
      w.placement.showCmd,
      w.placement.ptMinPosition,
      w.placement.ptMaxPosition,
      SavedNormalRect(w))
  }

  /** One entry per window in window order, each describing that window. */
  function SaveEntries(windows: seq<Window>): (entries: seq<WindowEntry>)
    ensures |entries| == |windows|
    ensures forall i :: 0 <= i < |windows| ==>
      && entries[i].process == LivePaths(windows)[i]
      && entries[i].minimized == windows[i].iconic
      && entries[i].title == ""
      && entries[i].length == PLACEMENT_SIZE
      && (!windows[i].iconic ==> entries[i].rcNormalPosition == windows[i].rect)
      && (windows[i].iconic ==> entries[i].rcNormalPosition == windows[i].placement.rcNormalPosition)
      && entries[i].showCmd == windows[i].placement.showCmd
      && entries[i].flags == windows[i].placement.flags
      && entries[i].handle == windows[i].handle
      && entries[i].ptMinPosition == windows[i].placement.ptMinPosition
      && entries[i].ptMaxPosition == windows[i].placement.ptMaxPosition
  {
    var paths := LivePaths(windows);
    seq(|windows|, i requires 0 <= i < |windows| => SaveEntry(windows[i], paths[i]))
  }

  /** A window moved by Stack or Cascade is saved as shown normally, at its new frame. */
  lemma SaveAfterMove(w: Window, f: Frame, path: string)
    ensures var e := SaveEntry(MoveTo(w, f), path);
      && !e.minimized
      && e.showCmd == SW_SHOWNORMAL
      && e.rcNormalPosition == FrameRect(f)
  {
  }

  // ---------------------------------------------------------------- file text

  /**
   * The text of a layout file after `text` is streamed into it through an
   * fstream opened without std::ios::trunc: the new text covers the start
   * of what was there, and the rest of a longer old text stays.
   */
  function WriteWithoutTruncation(before: string, text: string): (r: string)
    ensures |r| == if |before| > |text| then |before| else |text|
    ensures text <= r
    ensures forall k :: |text| <= k < |r| ==> r[k] == before[k]
  {
    if |before| > |text| then text + before[|text|..] else text
  }

  /** The file holds exactly the text written if and only if the old text was no longer. */
  lemma WriteWithoutTruncationExact(before: string, text: string)
    ensures WriteWithoutTruncation(before, text) == text <==> |before| <= |text|
  {
    if |before| > |text| {
      assert |WriteWithoutTruncation(before, text)| != |text|;
    }
  }

  /**
   * Saving a desktop layout again after an icon's x coordinate lost a digit
   * leaves a stray ']' after the JSON document, which a strict parse rejects.
   */
  lemma ShorterSaveLeavesStrayBracket()
    ensures WriteWithoutTruncation(
        "[{\"icon\":\"Bin\",\"position\":{\"x\":\"10\",\"y\":\"20\"}}]",
        "[{\"icon\":\"Bin\",\"position\":{\"x\":\"9\",\"y\":\"20\"}}]")
      == "[{\"icon\":\"Bin\",\"position\":{\"x\":\"9\",\"y\":\"20\"}}]]"
  {
  }

  /**
   * SaveWindowLayout: the file for `name` now holds one entry per window, in
   * order. The map update replaces the file's records as a truncating open would.
   */
  function SaveWindowLayout(files: LayoutFiles, name: string, windows: seq<Window>): (r: LayoutFiles)
    ensures r.Keys == files.Keys + {SavePath(name)}
    ensures r[SavePath(name)] == SaveEntries(windows)
    ensures forall p :: p in files && p != SavePath(name) ==> r[p] == files[p]
  {
    files[SavePath(name) := SaveEntries(windows)]
  }

  // ---------------------------------------------------------------- read back

  /**
   * The SavedWindow rebuilt from one entry. The min and max points are
   * read as UINT and stored back into LONG fields.
   */
  function ReadEntry(e: WindowEntry): SavedWindow {
    SavedWindow(
      e.process,
      e.flags,
      e.showCmd,
      Point(ToInt32(ToUint32(e.ptMinPosition.x)), ToInt32(ToUint32(e.ptMinPosition.y))),
      Point(ToInt32(ToUint32(e.ptMaxPosition.x)), ToInt32(ToUint32(e.ptMaxPosition.y))),
      e.rcNormalPosition)
  }

  function ReadEntries(entries: seq<WindowEntry>): (saved: seq<SavedWindow>)
    ensures |saved| == |entries|
  {
    seq(|entries|, i requires 0 <= i < |entries| => ReadEntry(entries[i]))
  }

  /** Every coordinate of the placement fits a LONG, as the OS returns it. */
  predicate PlacementFitsLong(p: Placement) {
    IsInt32(p.ptMinPosition.x) && IsInt32(p.ptMinPosition.y) && IsInt32(p.ptMaxPosition.x) && IsInt32(p.ptMaxPosition.y)
  }

  /** What is read back for a window is what was written for it. */
  lemma ReadBackSavedEntry(w: Window, path: string)
    requires PlacementFitsLong(w.placement)
    ensures var s := ReadEntry(SaveEntry(w, path));
      && s.process == path
      && s.flags == w.placement.flags
      && s.showCmd == w.placement.showCmd
      && s.ptMinPosition == w.placement.ptMinPosition
      && s.ptMaxPosition == w.placement.ptMaxPosition
      && s.rcNormalPosition == (if w.iconic then w.placement.rcNormalPosition else w.rect)
  {
    Int32RoundTrip(w.placement.ptMinPosition.x);
    Int32RoundTrip(w.placement.ptMinPosition.y);
    Int32RoundTrip(w.placement.ptMaxPosition.x);
    Int32RoundTrip(w.placement.ptMaxPosition.y);
  }

  // ---------------------------------------------------------------- restore

  /** Saved entry and live window belong to the same executable, compared after NUL removal. */
  predicate SamePath(s: SavedWindow, livePath: string) {
    RemoveNul(s.process) == livePath
  }

  /**
   * The WINDOWPLACEMENT built for a saved entry as the source writes it:
   * ptMaxPosition is assigned twice and ptMinPosition never, so the
   * placement carries whatever the uninitialised local held.
   */
  function PlacementAsWritten(s: SavedWindow, uninitialised: Point): Placement {
    Placement(PLACEMENT_SIZE, s.flags, s.showCmd, uninitialised, s.ptMaxPosition, s.rcNormalPosition)
  }

  /** The placement evidently intended: every saved field carried over. */
  function PlacementOf(s: SavedWindow): Placement {
    Placement(PLACEMENT_SIZE, s.flags, s.showCmd, s.ptMinPosition, s.ptMaxPosition, s.rcNormalPosition)
  }

  /** The as-written placement's min position does not depend on the saved one. */
  lemma AsWrittenDropsMinPosition(s: SavedWindow, uninitialised: Point)
    ensures PlacementAsWritten(s, uninitialised).ptMinPosition == uninitialised
    ensures PlacementAsWritten(s, uninitialised) == PlacementOf(s).(ptMinPosition := uninitialised)
  {
  }

  /** A saved minimized position of (-32000, -32000) is lost when the uninitialised local held (0, 0). */
  lemma AsWrittenLosesSavedMinPosition()
    ensures var s := SavedWindow("C:\\app.exe", 0, 2, Point(-32000, -32000), Point(-1, -1), Rect(10, 10, 400, 300));
      PlacementAsWritten(s, Point(0, 0)).ptMinPosition != s.ptMinPosition
  {
  }

  /** The placement a window should get back: the one saved, with its live rectangle when it was not minimized. */
  function SavedPlacement(w: Window): Placement {
    w.placement.(length := PLACEMENT_SIZE, rcNormalPosition := SavedNormalRect(w))
  }

  /**
   * With the corrected placement, writing a window's entry and reading it
   * back rebuilds the placement save recorded, min position included.
   */
  lemma PlacementOfRoundTrip(w: Window, path: string)
    requires PlacementFitsLong(w.placement)
    ensures PlacementOf(ReadEntry(SaveEntry(w, path))) == SavedPlacement(w)
  {
    ReadBackSavedEntry(w, path);
  }

  /** Index of the last saved entry for the path, in file order. */
  function LastMatch(saved: seq<SavedWindow>, livePath: string): (k: Option<nat>)
    ensures k.Some? ==> k.value < |saved| && SamePath(saved[k.value], livePath)
    ensures k.Some? ==> forall j :: k.value < j < |saved| ==> !SamePath(saved[j], livePath)
    ensures k.None? <==> forall j :: 0 <= j < |saved| ==> !SamePath(saved[j], livePath)
    decreases |saved|
  {
    if |saved| == 0 then None
    else if SamePath(saved[|saved| - 1], livePath) then Some(|saved| - 1)
    else LastMatch(saved[..|saved| - 1], livePath)
  }

  /** A live window after every matching entry has been applied to it in turn. */
  function RestoreWindow(w: Window, livePath: string, saved: seq<SavedWindow>): Window {
    match LastMatch(saved, livePath)
    case Some(k) => w.(placement := PlacementOf(saved[k]))
    case None => w
  }

  /**
   * The inner loop of ExecuteWindowLayout: every saved entry whose process
   * path matches is applied to the window, in file order.
   */
  method ApplyMatchingEntries(w: Window, path: string, saved: seq<SavedWindow>) returns (ctrl: Window)
    ensures LastMatch(saved, path).Some? ==> ctrl == w.(placement := PlacementOf(saved[LastMatch(saved, path).value]))
    ensures LastMatch(saved, path).None? ==> ctrl == w
  {
    ctrl := w;
    var j := 0;
    while j < |saved|
      invariant 0 <= j <= |saved|
      invariant ctrl == RestoreWindow(w, path, saved[..j])
    {
      assert saved[..j + 1][..j] == saved[..j];
      if RemoveNul(saved[j].process) == path {
        ctrl := ctrl.(placement := PlacementOf(saved[j]));
      }
      j := j + 1;
    }
    assert saved[..|saved|] == saved;
  }

  /** The outer loop of ExecuteWindowLayout: one pass over the live windows. */
  method ApplySavedPlacements(live: seq<Window>, saved: seq<SavedWindow>) returns (restored: seq<Window>)
    ensures |restored| == |live|
    ensures forall i :: 0 <= i < |live| ==> restored[i] == RestoreWindow(live[i], LivePaths(live)[i], saved)
  {
    var paths := LivePaths(live);
    var path := "";
    restored := [];
    var i := 0;
    while i < |live|
      invariant 0 <= i <= |live| && |restored| == i
      invariant path == if i == 0 then "" else paths[i - 1]
      invariant forall k :: 0 <= k < i ==> restored[k] == RestoreWindow(live[k], paths[k], saved)
    {
      if live[i].processPath.Some? {
        path := live[i].processPath.value;
      }
      assert path == paths[i];
      var ctrl := ApplyMatchingEntries(live[i], path, saved);
      restored := restored + [ctrl];
      i := i + 1;
    }
  }

  /** ExecuteWindowLayout: nothing happens when the file does not exist. */
  function ExecuteWindowLayout(files: LayoutFiles, name: string, live: seq<Window>): (r: seq<Window>)
    ensures |r| == |live|
    ensures ExecutePath(name) !in files ==> r == live
  {
    var path := ExecutePath(name);
    if path !in files then live
    else
      var saved := ReadEntries(files[path]);
      var paths := LivePaths(live);
      seq(|live|, i requires 0 <= i < |live| => RestoreWindow(live[i], paths[i], saved))
  }

  /** Restore changes nothing but placements, and a window with no saved entry for its path keeps its own. */
  lemma RestoreOnlyTouchesMatchedPlacements(files: LayoutFiles, name: string, live: seq<Window>)
    ensures var r := ExecuteWindowLayout(files, name, live);
      && (forall i :: 0 <= i < |live| ==> r[i].(placement := live[i].placement) == live[i])
      && (ExecutePath(name) in files ==>
            forall i :: 0 <= i < |live| ==>
              var saved := ReadEntries(files[ExecutePath(name)]);
              (forall j :: 0 <= j < |saved| ==> !SamePath(saved[j], LivePaths(live)[i])) ==> r[i] == live[i])
  {
  }

  /** Windows whose process is known and differs from every other window's. */
  predicate DistinctKnownPaths(windows: seq<Window>) {
    && (forall i :: 0 <= i < |windows| ==> windows[i].processPath.Some? && NulFree(windows[i].processPath.value))
    && (forall i, j :: 0 <= i < j < |windows| ==> windows[i].processPath != windows[j].processPath)
  }

  /** Each window restored from its own saved entries gets back the placement it had. */
  lemma RestoreFromOwnEntries(windows: seq<Window>, i: nat)
    requires DistinctKnownPaths(windows)
    requires forall k :: 0 <= k < |windows| ==> PlacementFitsLong(windows[k].placement)
    requires i < |windows|
    ensures RestoreWindow(windows[i], LivePaths(windows)[i], ReadEntries(SaveEntries(windows)))
      == windows[i].(placement := SavedPlacement(windows[i]))
  {
    var saved := ReadEntries(SaveEntries(windows));
    var paths := LivePaths(windows);
    assert saved[i] == ReadEntry(SaveEntry(windows[i], paths[i]));
    ReadBackSavedEntry(windows[i], paths[i]);
    PlacementOfRoundTrip(windows[i], paths[i]);
    forall j | 0 <= j < |saved| && j != i ensures !SamePath(saved[j], paths[i]) {
      assert RemoveNul(saved[j].process) == paths[j];
    }
    assert SamePath(saved[i], paths[i]);
    assert LastMatch(saved, paths[i]) == Some(i);
  }

  /**
   * Save followed by restore on the same, unchanged windows gives every
   * window back its own placement, when no two windows share a process.
   */
  lemma SaveThenRestore(files: LayoutFiles, name: string, windows: seq<Window>)
    requires NulFree(name)
    requires DistinctKnownPaths(windows)
    requires forall i :: 0 <= i < |windows| ==> PlacementFitsLong(windows[i].placement)
    ensures var r := ExecuteWindowLayout(SaveWindowLayout(files, name, windows), name, windows);
      forall i :: 0 <= i < |windows| ==> r[i] == windows[i].(placement := SavedPlacement(windows[i]))
  {
    var stored := SaveWindowLayout(files, name, windows);
    ExecuteFindsSavedFile(name);
    assert ExecutePath(name) in stored && stored[ExecutePath(name)] == SaveEntries(windows);
    forall i | 0 <= i < |windows|
      ensures RestoreWindow(windows[i], LivePaths(windows)[i], ReadEntries(SaveEntries(windows)))
        == windows[i].(placement := SavedPlacement(windows[i]))
    {
      RestoreFromOwnEntries(windows, i);
    }
  }

  /** Several windows of one executable all end with the placement of the last entry saved for it. */
  lemma SharedProcessTakesLastEntry(files: LayoutFiles, name: string, live: seq<Window>, a: nat, b: nat)
    requires ExecutePath(name) in files
    requires a < b < |live|
    requires LivePaths(live)[a] == LivePaths(live)[b]
    ensures var r := ExecuteWindowLayout(files, name, live);
      r[a].placement == r[b].placement || r[a] == live[a]
  {
  }

  /** The path buffer depends on nothing but the process lookups. */
  lemma {:induction false} ProcessPathsOnlyReadProcess(a: seq<Window>, b: seq<Window>, previous: string)
    requires |a| == |b|
    requires forall i :: 0 <= i < |a| ==> a[i].processPath == b[i].processPath
    ensures ProcessPaths(a, previous) == ProcessPaths(b, previous)
    decreases |a|
  {
    if |a| > 0 {
      var path := if a[0].processPath.Some? then a[0].processPath.value else previous;
      ProcessPathsOnlyReadProcess(a[1..], b[1..], path);
    }
  }

  /** Restoring the same layout a second time changes nothing more. */
  lemma RestoreIdempotent(files: LayoutFiles, name: string, live: seq<Window>)
    ensures var once := ExecuteWindowLayout(files, name, live);
      ExecuteWindowLayout(files, name, once) == once
  {
    var once := ExecuteWindowLayout(files, name, live);
    ProcessPathsOnlyReadProcess(once, live, "");
  }
}

=== FILE: window_source.dfy ===
/**
 * EnumWindowsProc and GetActiveWindows: which top-level windows the tool
 * works on, and in which order.
 */
module WindowSource {
  import opened Windows
  import opened Lexicographic
  import opened TextUnits

  /** WCHAR windowTitle[256] / char titleA[256]. */
  const TITLE_CAPACITY: nat := 256

  /** Shell and tool windows that are never arranged. */
  const EXCLUDED_TITLES: set<string> := {
    "Program Manager",
    "Windows Input Experience",
    "Windows Shell Experience Host",
    "Windows Window Extension Window",
    "Windows_Windows (Running) - Microsoft Visual Studio"
  }

  /** What GetWindowText copies into the 256-unit buffer. */
  function TitleText(w: Window): (t: string)
    ensures |t| < TITLE_CAPACITY
    ensures t <= w.title
  {
    Truncate(w.title, TITLE_CAPACITY)
  }

  /** A window worth arranging: top-level, visible, titled and not excluded. */
  predicate IsCandidate(w: Window) {
    !w.hasParent && w.visible && TitleText(w) != "" && TitleText(w) !in EXCLUDED_TITLES
  }

  /** The enumeration callback, one branch per test in the source. */
  function EnumWindowsProc(collected: seq<Window>, w: Window): (r: seq<Window>)
    ensures IsCandidate(w) ==> r == collected + [w]
    ensures !IsCandidate(w) ==> r == collected
  {
    if !w.hasParent && w.visible then
      var title := TitleText(w);
      if |title| == 0 then collected
      else if title == "Program Manager" || title == "Windows Input Experience" || title == "Windows Shell Experience Host" then collected
      else if title == "Windows Window Extension Window" || title == "Windows_Windows (Running) - Microsoft Visual Studio" then collected
      else collected + [w]
    else collected
  }

  /** EnumWindows: the callback run over every top-level window in enumeration order. */
  function Enumerate(all: seq<Window>): (r: seq<Window>)
    ensures forall w :: multiset(r)[w] == if IsCandidate(w) then multiset(all)[w] else 0
    ensures forall i :: 0 <= i < |r| ==> IsCandidate(r[i])
    decreases |all|
  {
    if |all| == 0 then []
    else
      var init := all[..|all| - 1];
      assert all == init + [all[|all| - 1]];
      EnumWindowsProc(Enumerate(init), all[|all| - 1])
  }

  /** compareHwnd's key: the title read through a 256-unit buffer. */
  function Key(w: Window): string {
    TitleText(w)
  }

  /** Non-decreasing by title. */
  predicate SortedByTitle(s: seq<Window>) {
    forall i, j :: 0 <= i < j < |s| ==> LessEq(Key(s[i]), Key(s[j]))
  }

  /** Places w before the first window whose title is not smaller. */
  function Insert(w: Window, s: seq<Window>): (r: seq<Window>)
    requires SortedByTitle(s)
    ensures SortedByTitle(r)
    ensures multiset(r) == multiset(s) + multiset{w}
    decreases |s|
  {
    if |s| == 0 then [w]
    else if LessEq(Key(w), Key(s[0])) then
      SortedHeadBoundsAll(w, s);
      PrependSorted(w, s);
      [w] + s
    else
      var rest := Insert(w, s[1..]);
      assert s == [s[0]] + s[1..];
      LessTotal(Key(s[0]), Key(w));
      LessAsymmetric(Key(s[0]), Key(w));
      ElementsBoundedBelow(s[0], s[1..], w, rest);
      PrependSorted(s[0], rest);
      [s[0]] + rest
  }

  /** A lower bound of the head of a sorted sequence bounds all of it. */
  lemma SortedHeadBoundsAll(w: Window, s: seq<Window>)
    requires SortedByTitle(s) && |s| > 0 && LessEq(Key(w), Key(s[0]))
    ensures forall e :: e in s ==> LessEq(Key(w), Key(e))
  {
    forall e | e in s ensures LessEq(Key(w), Key(e)) {
      var j :| 0 <= j < |s| && s[j] == e;
      if j > 0 { LessEqTransitive(Key(w), Key(s[0]), Key(s[j])); }
    }
  }

  lemma PrependSorted(w: Window, s: seq<Window>)
    requires SortedByTitle(s)
    requires forall e :: e in s ==> LessEq(Key(w), Key(e))
    ensures SortedByTitle([w] + s)
  {
    var r := [w] + s;
    forall i, j | 0 <= i < j < |r| ensures LessEq(Key(r[i]), Key(r[j])) {
      if i == 0 { assert r[j] == s[j - 1]; } else { assert r[i] == s[i - 1] && r[j] == s[j - 1]; }
    }
  }

  /** Everything in a permutation of tail + [w] is bounded below by head when head bounds both. */
  lemma ElementsBoundedBelow(head: Window, tail: seq<Window>, w: Window, rest: seq<Window>)
    requires multiset(rest) == multiset(tail) + multiset{w}
    requires forall e :: e in tail ==> LessEq(Key(head), Key(e))
    requires LessEq(Key(head), Key(w))
    ensures forall e :: e in rest ==> LessEq(Key(head), Key(e))
  {
    forall e | e in rest ensures LessEq(Key(head), Key(e)) {
      assert e in multiset(rest);
      if e != w { assert e in multiset(tail); }
    }
  }

  /** std::sort with compareHwnd, as insertion sort: which of equal titles comes first is not promised. */
  function SortByTitle(s: seq<Window>): (r: seq<Window>)
    ensures SortedByTitle(r)
    ensures multiset(r) == multiset(s)
    decreases |s|
  {
    if |s| == 0 then []
    else
      assert s == [s[0]] + s[1..];
      Insert(s[0], SortByTitle(s[1..]))
  }

  /**
   * The windows the tool arranges: every candidate, each as often as the
   * enumeration reports it, sorted by title.
   */
  function GetActiveWindows(all: seq<Window>): (r: seq<Window>)
    ensures SortedByTitle(r)
    ensures forall w :: multiset(r)[w] == if IsCandidate(w) then multiset(all)[w] else 0
    ensures forall i :: 0 <= i < |r| ==> IsCandidate(r[i])
  {
    var found := Enumerate(all);
    if |found| == 0 then found
    else
      var r := SortByTitle(found);
      assert forall i :: 0 <= i < |r| ==> IsCandidate(r[i]) by {
        forall i | 0 <= i < |r| ensures IsCandidate(r[i]) {
          assert r[i] in multiset(found);
        }
      }
      r
  }
}

=== FILE: windows.dfy ===
/**
 * The live top-level window as the layout engine sees it: the answers the
 * Win32 queries (GetParent, IsWindowVisible, GetWindowText, IsIconic,
 * GetWindowRect, GetWindowPlacement, the owning process's module path)
 * would give for one HWND.
 */
module Windows {
  import opened Results
  import opened Geometry

  /** sizeof(WINDOWPLACEMENT): length, flags, showCmd, two POINTs and a RECT. */
  const PLACEMENT_SIZE: int := 44

  /** The show state GetWindowPlacement reports for a restored window. */
  const SW_SHOWNORMAL: int := 1

  /** A WINDOWPLACEMENT. */
  datatype Placement = Placement(
    length: int,
    flags: int,
    showCmd: int,
    ptMinPosition: Point,
    ptMaxPosition: Point,
    rcNormalPosition: Rect)

  datatype Window = Window(
    handle: int,
    hasParent: bool,
    visible: bool,
    title: string,
    /** None when the owning process cannot be opened or its module path read. */
    processPath: Option<string>,
    iconic: bool,
    rect: Rect,
    placement: Placement)

  /**
   * SW_RESTORE / SW_SHOWNORMAL followed by SetWindowPos: the window is no
   * longer minimized, its rectangle is the requested frame, and its
   * placement now reports the normal show state with that frame as its
   * normal position.
   */
  function MoveTo(w: Window, f: Frame): (r: Window)
    ensures !r.iconic && r.rect == FrameRect(f)
    ensures r.placement.showCmd == SW_SHOWNORMAL && r.placement.rcNormalPosition == r.rect
    ensures r.placement.(showCmd := w.placement.showCmd, rcNormalPosition := w.placement.rcNormalPosition) == w.placement
    ensures r.(iconic := w.iconic, rect := w.rect, placement := w.placement) == w
  {
    w.(iconic := false, rect := FrameRect(f),
       placement := w.placement.(showCmd := SW_SHOWNORMAL, rcNormalPosition := FrameRect(f)))
  }

  /** Moving a window twice to the same frame is the same as moving it once. */
  lemma MoveToIdempotent(w: Window, f: Frame)
    ensures MoveTo(MoveTo(w, f), f) == MoveTo(w, f)
  {
  }
}

=== FILE: word32.dfy ===
/**
 * The fixed-width integer conversions the layout files go through:
 * a LONG written to JSON is read back as UINT and stored into a LONG again,
 * and LVM_SETITEMPOSITION packs coordinates into 16-bit words.
 */
module Word32 {

  const TWO_16: int := 0x1_0000
  const TWO_31: int := 0x8000_0000
  const TWO_32: int := 0x1_0000_0000

  /** Values a Win32 LONG can hold. */
  predicate IsInt32(x: int) {
    -TWO_31 <= x < TWO_31
  }

  /** Conversion to UINT: reduction modulo 2^32. */
  function ToUint32(x: int): (u: int)
    ensures 0 <= u < TWO_32
    ensures 0 <= x < TWO_32 ==> u == x
    ensures -TWO_32 <= x < 0 ==> u == x + TWO_32
  {
    x % TWO_32
  }

  /** Conversion of an unsigned 32-bit value to LONG: two's-complement reinterpretation. */
  function ToInt32(u: int): (x: int)
    ensures IsInt32(x)
    ensures IsInt32(u) ==> x == u
    ensures TWO_31 <= u < TWO_32 ==> x == u - TWO_32
  {
    var m := u % TWO_32;
    if m < TWO_31 then m else m - TWO_32
  }

  /** A LONG survives the trip through UINT unchanged. */
  lemma Int32RoundTrip(x: int)
    requires IsInt32(x)
    ensures ToInt32(ToUint32(x)) == x
  {
    if x < 0 {
      assert ToUint32(x) == x + TWO_32;
    }
  }

  /** The (WORD) cast MAKELPARAM applies to each coordinate. */
  function LoWord(x: int): (w: int)
    ensures 0 <= w < TWO_16
    ensures 0 <= x < TWO_16 ==> w == x
    ensures (x - w) % TWO_16 == 0
  {
    x % TWO_16
  }
}
